=== FILE: README.md ===
# Gittycat: the cat's meters and the catch-up of `status`

Gittycat keeps a virtual cat inside a git repository. The cat has three
meters: food, energy and excitement. Commits feed it, the files they touch
tire it, the lines they insert excite it, and elapsed time makes it hungry
and bored while it recovers energy. This project models the two pieces of
logic behind that:

- `cat.dfy`, module `CatModel`, models cat.py. It has the `Cat` class with its
  maxima, six rate modifiers, three meters and `last_update`. Every meter
  method moves one meter and saturates at the maximum or at zero. Each
  method is proved equal to a pure transform on a `Needs` value
  (`AfterFeed`, `AfterHunger`, ...). It also leaves the maxima, the
  modifiers, the other meters, the name and `last_update` unchanged.
- `gittycat.dfy`, module `Gittycat`, models the body of the `status`
  command. It applies time decay once for the days since the checkpoint.
  Then it walks the commits newest first and stops at the first commit
  strictly older than the checkpoint. It skips commits whose author name
  contains `Gittycat`, and applies `feed(1)`, `exhaust(files)` and
  `excite(insertions)` for each other commit. Finally it sets the new
  checkpoint. `Status` is an imperative method over a `Cat` with the
  `break`/`continue` loop of gittycat.py. It is proved equal to the recursive
  specification `CatchUp`. `CatchUp` in turn is proved equal to applying
  each in-scope, non-tool commit exactly once (`ApplyAll` over
  `UserCommits(InScope(...))`).

Several behaviours of the code are modelled as written:

- `update_by_time_passed(days)` calls `bore(days * excitement_drain_modifier)`
  and `recharge(days * energy_gain_modifier)`. Both callees multiply by the
  modifier again, so those two modifiers act squared. The docstrings of
  cat.py (lines 24 and 28) describe both as amounts "per day". With the
  default value 100, a day drains 10000 excitement and recharges 10000
  energy, so any 0.01 days empties the excitement meter and fills the energy
  meter (`DefaultTimeSaturatesWithinMinutes`). Read per day, 0.01 days would
  take only 1 excitement away (`PerDayBoreDrainsOnePercent`).
- `excite(amount)` adds the excitement gain modifier as a flat bonus, once
  per call. It does not multiply by it. The docstring of cat.py (line 27)
  describes the modifier as excitement gained "per line added", but `status`
  calls `excite(insertions)` once per commit, so the bonus is per commit.
- `pet` and `nap` are empty stubs and change nothing.
- `status` reads the clock twice: once for the elapsed days (line 55) and
  once for the new checkpoint (line 78). They are the parameters `startedAt`
  and `finishedAt`.
- The stop test compares against the checkpoint stored before the run. That
  value is still in the field during the loop.
- If the clock is behind the checkpoint, the elapsed days are negative. The
  hunger and bore steps then RAISE food and excitement, possibly above their
  maxima. The recharge step then LOWERS energy, possibly below zero. Every
  in-range result therefore assumes `startedAt >= last_update`.

Timestamps are reals counting seconds since the epoch (UTC). Meters and
modifiers are reals.

## Model

| member | source | states |
|---|---|---|
| `CatModel.RaiseCapped` | cat.py:70 | `min(x + delta, cap)`: at most both arguments and equal to one of them |
| `CatModel.LowerFloored` | cat.py:73 | `max(0, x - delta)`: at least both arguments and equal to one of them |
| `CatModel.DefaultCatStartsInRange` | cat.py:8-16 | the constructor's defaults (`DefaultSettings`: maxima 100, food gain 10, food drain 100, energy gain 100, energy drain 5, excitement gain 0.5, excitement drain 100) have no negative modifier, and a new cat with them starts with every meter in `[0, max]` |
| `CatModel.AfterFeed` | cat.py:69-70 | feeding changes only food, never above `max_food`, and never lowers food that starts at most `max_food` when `amount * gain` is non-negative |
| `CatModel.AfterHunger` | cat.py:72-73 | hunger changes only food, never below 0, and never raises food that starts non-negative when `days * drain` is non-negative |
| `CatModel.AfterRecharge` | cat.py:75-76 | recharge changes only energy, never above `max_energy`, and never lowers energy that starts at most `max_energy` when `amount * gain` is non-negative |
| `CatModel.AfterExhaust` | cat.py:78-79 | exhaust changes only energy, never below 0, and never raises energy that starts non-negative when `days * drain` is non-negative |
| `CatModel.AfterExcite` | cat.py:81-82 | excite changes only excitement, never above `max_excitement`, and never lowers excitement that starts at most `max_excitement` when `amount + gain` is non-negative |
| `CatModel.AfterBore` | cat.py:84-85 | bore changes only excitement, never below 0, and never raises excitement that starts non-negative when `days * drain` is non-negative |
| `CatModel.AfterTime` | cat.py:59-67 | after time passes, food and excitement are non-negative and energy is at most `max_energy` |
| `CatModel.DefaultTimeSaturatesWithinMinutes` | cat.py:59-67 | with the default modifiers, which act squared, any 0.01 days from in-range meters leaves excitement at exactly 0 and energy at exactly `max_energy` |
| `CatModel.PerDayBoreDrainsOnePercent` | cat.py:84-85 | an illustration, not a property of `bore`: one evaluation of `bore(0.01)` at the default drain of 100, taking full excitement from 100 to 99, for contrast with the squared drain of `update_by_time_passed` |
| `CatModel.TimePassedKeepsInRange` | cat.py:59-67 | with non-negative modifiers and days, meters in `[0, max]` stay in `[0, max]` |
| `CatModel.NoTimeChangesNothing` | cat.py:59-67 | zero days leave in-range meters exactly as they were |
| `CatModel.RaisesKeepInRange` | cat.py:69-82 | feed, recharge and excite with a non-negative argument and modifiers keep all meters in `[0, max]` |
| `CatModel.LowersKeepInRange` | cat.py:72-85 | hunger, exhaust and bore with a non-negative argument and modifiers keep all meters in `[0, max]` |
| `CatModel.HungerClampsAtZero` | cat.py:72-73 | food 100 with drain 1 after `hunger(150)` is exactly 0 |
| `CatModel.Cat.constructor` | cat.py:7-47 | a new cat stores the given maxima and modifiers, starts every meter at its maximum and sets `last_update` to the creation time |
| `CatModel.Cat.Pet` | cat.py:49-52 | petting changes nothing |
| `CatModel.Cat.Nap` | cat.py:54-57 | a nap changes nothing |
| `CatModel.Cat.UpdateByTimePassed` | cat.py:59-67 | the meters become `AfterTime` of the old meters; settings, name and `last_update` unchanged |
| `CatModel.Cat.Feed` | cat.py:69-70 | the meters become `AfterFeed` of the old meters; everything else unchanged |
| `CatModel.Cat.Hunger` | cat.py:72-73 | the meters become `AfterHunger` of the old meters; everything else unchanged |
| `CatModel.Cat.Recharge` | cat.py:75-76 | the meters become `AfterRecharge` of the old meters; everything else unchanged |
| `CatModel.Cat.Exhaust` | cat.py:78-79 | the meters become `AfterExhaust` of the old meters; everything else unchanged |
| `CatModel.Cat.Excite` | cat.py:81-82 | the meters become `AfterExcite` of the old meters; everything else unchanged |
| `CatModel.Cat.Bore` | cat.py:84-85 | the meters become `AfterBore` of the old meters; everything else unchanged |
| `Gittycat.Contains` | gittycat.py:66 | Python's `in` on strings: it holds whenever the marker is a prefix of the name, and only when the marker is no longer than the name |
| `Gittycat.IsSelfAuthored` | gittycat.py:66 | a commit is skipped exactly when `Gittycat` occurs at some index of its author name |
| `Gittycat.ContainsIffOccurs` | gittycat.py:66 | the recursive substring test holds exactly when the marker occurs at some index |
| `Gittycat.ContainsInfix` | gittycat.py:66 | a string with the marker anywhere inside contains it |
| `Gittycat.CheckpointAuthorName` | gittycat.py:80 | the name part of the checkpoint's author string, `{name} (via Gittycat)`: it starts with the cat's name and contains `Gittycat` |
| `Gittycat.RecordedName` | gittycat.py:23 | the name git records for an `--author` string is a prefix of it that contains no `<` |
| `Gittycat.RecordedNameOfAuthorString` | gittycat.py:15-23 | a name without `<` that does not end in a space is recorded exactly as given in `Name <gittycat@example.com>` |
| `Gittycat.CheckpointAuthorsAreSelf` | gittycat.py:80 | the names git records for the tool's two author strings contain `Gittycat`: `Gittycat` (line 15) always, and `{name} (via Gittycat)`, recorded unchanged, whenever the cat's name has no `<` |
| `Gittycat.AngleInCatNameHidesMarker` | gittycat.py:80 | for a cat named `Tom <3`, git records the checkpoint author as `Tom`, which does not contain `Gittycat` |
| `Gittycat.ElapsedDays` | gittycat.py:55 | the elapsed days times 86400 are the elapsed seconds; they are non-negative when the clock has not gone back |
| `Gittycat.AfterCommit` | gittycat.py:70-75 | after one commit, food is at most `max_food`, energy non-negative and excitement at most `max_excitement` |
| `Gittycat.AfterCommitKeepsInRange` | gittycat.py:70-75 | one commit keeps every meter in `[0, max]` when the modifiers are non-negative |
| `Gittycat.CatchUp` | gittycat.py:61-75 | the commit loop as a recursive definition: stop at a commit strictly older than the checkpoint, skip a tool commit, otherwise apply feed, exhaust and excite and go on; it keeps every meter in `[0, max]` when the modifiers are non-negative |
| `Gittycat.StopIndex` | gittycat.py:61-64 | the scan stops at the first commit strictly older than the checkpoint; every commit before it is at or after the checkpoint |
| `Gittycat.UserCommits` | gittycat.py:65-67 | a commit is kept exactly when it is in the log and its author name does not contain `Gittycat`, and it is kept as many times as it occurs in the log |
| `Gittycat.CatchUpAppliesEachUserCommitOnce` | gittycat.py:61-75 | the commit loop equals applying each in-scope commit not made by the tool exactly once, newest first |
| `Gittycat.ScanStopsAtFirstOlderCommit` | gittycat.py:61-64 | the first commit older than the checkpoint and everything after it do not affect the result |
| `Gittycat.BoundaryIsInclusive` | gittycat.py:63-64 | a commit stamped exactly at the checkpoint is processed |
| `Gittycat.SelfCommitsAreInvisible` | gittycat.py:65-67 | a tool commit at or after the checkpoint touches no meter and the scan continues past it |
| `Gittycat.CheckpointCommitNeverCounts` | gittycat.py:78-80 | for a cat name without `<`, the checkpoint commit `status` makes, under the name git records for it, is never fed back into the cat on a later run |
| `Gittycat.AngleCatCheckpointCounts` | gittycat.py:61-80 | for a cat named `Tom <3`, the checkpoint commit under its recorded name is applied on a later run like a user commit |
| `Gittycat.ApplyAllKeepsInRange` | gittycat.py:70-75 | applying commits keeps every meter in `[0, max]` when the modifiers are non-negative |
| `Gittycat.NoUserCommitLeavesMetersAlone` | gittycat.py:61-67 | if no commit before the stop is a user commit, the scan leaves the meters unchanged |
| `Gittycat.RerunWithoutNewCommitsChangesNothing` | gittycat.py:54-78 | with zero elapsed time and only tool commits since the checkpoint, a run leaves in-range meters unchanged |
| `Gittycat.OneUserCommitBesideSelfCommit` | gittycat.py:61-75 | with one tool commit and one user commit (3 files, 20 insertions), exactly one feed, exhaust and excite are applied |
| `Gittycat.Status` | gittycat.py:54-78 | the meters become `CatchUp` of the time-decayed meters; the new checkpoint is the second clock reading; settings and name unchanged; meters stay in `[0, max]` when they start there, the modifiers are non-negative and the clock has not gone back |

## Left out

- `Cat.load` and `Cat.save` (cat.py:87-143): JSON file I/O only. `status` loads the cat before the modelled body and saves it after.
- `_commit_changes`, `adopt` and `release` (gittycat.py:15-41, 95-101): git add and commit, directory creation and removal. Only the two author names the tool commits under are modelled.
- The `pet` command (gittycat.py:85-92): it loads the cat, calls the no-op `Cat.pet` and never saves.
- `print` output and `argh` command dispatch.
- `datetime.now`, `commit.committed_datetime` and `commit.stats` are not modelled. They are parameters and the fields of `Commit`.
- git's parsing of an `--author` string is modelled only as `RecordedName`: the text before the first `<`, without the spaces in front of it. git's removal of stray characters at either end of a name, and GitPython's parsing of the stored commit header back into `commit.author.name`, are not part of this model.
- `Gittycat.CheckpointAuthorsAreSelf`: the recorded checkpoint name is proved to contain `Gittycat` only for cat names without `<`. For a name with `<`, git cuts the author string inside the cat's name (`AngleInCatNameHidesMarker`).
- `Gittycat.CheckpointCommitNeverCounts`: proved only for cat names without `<`. For a name with `<`, the recorded name can lose the marker, and the checkpoint commit is then fed back into the cat (`AngleCatCheckpointCounts`).
- A failure while reading the commit log: gittycat.py then raises before saving, so nothing is persisted. The model has no commit log that can fail.
- Floating-point rounding: meters, modifiers and timestamps are reals.

=== FILE: cat.dfy ===
/**
 * The cat of cat.py: three meters (food, energy, excitement) that every
 * update moves up or down and saturates at the meter's maximum or at zero,
 * the three maxima and six rate modifiers fixed when the cat is created,
 * and the time of the last checkpoint.
 *
 * The meter arithmetic appears in two forms. The pure transforms on a
 * `Needs` value (AfterFeed, AfterHunger, ...) are what the catch-up reducer
 * of gittycat.py is specified with. The methods of class `Cat` update the
 * fields in place, as cat.py does, and are proved to agree with those
 * transforms. Meters, modifiers and timestamps are reals; the rounding of
 * Python's floats is not modelled.
 */
module CatModel {

  /** A meter raised by `delta`, saturating at `cap`: cat.py's `min(x + delta, cap)`. */
  function RaiseCapped(x: real, delta: real, cap: real): (r: real)
    ensures r <= x + delta && r <= cap
    ensures r == x + delta || r == cap
  {
    if x + delta <= cap then x + delta else cap
  }

  /** A meter lowered by `delta`, saturating at zero: cat.py's `max(0.0, x - delta)`. */
  function LowerFloored(x: real, delta: real): (r: real)
    ensures r >= x - delta && r >= 0.0
    ensures r == x - delta || r == 0.0
  {
    if 0.0 <= x - delta then x - delta else 0.0
  }

  /** The three meters of a cat. */
  datatype Needs = Needs(food: real, energy: real, excitement: real)

  /** The maxima and rate modifiers of a cat, fixed when it is created. */
  datatype Settings = Settings(
    maxFood: real, foodGainModifier: real, foodDrainModifier: real,
    maxEnergy: real, energyGainModifier: real, energyDrainModifier: real,
    maxExcitement: real, excitementGainModifier: real, excitementDrainModifier: real)

  /** The constructor's default arguments (cat.py lines 8-16). */
  const DefaultSettings := Settings(100.0, 10.0, 100.0, 100.0, 100.0, 5.0, 100.0, 0.5, 100.0)

  /** Every meter lies between zero and its maximum. */
  predicate InRange(s: Settings, n: Needs)
  {
    0.0 <= n.food <= s.maxFood &&
    0.0 <= n.energy <= s.maxEnergy &&
    0.0 <= n.excitement <= s.maxExcitement
  }

  /** Every rate modifier is non-negative, as all the default ones are. */
  predicate NonNegativeModifiers(s: Settings)
  {
    s.foodGainModifier >= 0.0 && s.foodDrainModifier >= 0.0 &&
    s.energyGainModifier >= 0.0 && s.energyDrainModifier >= 0.0 &&
    s.excitementGainModifier >= 0.0 && s.excitementDrainModifier >= 0.0
  }

  /**
   * The defaults make a sane cat: no modifier is negative, and a new cat,
   * whose meters start at their maxima, is in range.
   */
  lemma DefaultCatStartsInRange()
    ensures NonNegativeModifiers(DefaultSettings)
    ensures InRange(DefaultSettings, Needs(DefaultSettings.maxFood, DefaultSettings.maxEnergy, DefaultSettings.maxExcitement))
  {
  }

  /** `feed(amount)`: food rises by `amount` times the food gain modifier, up to the maximum. */
  function AfterFeed(s: Settings, n: Needs, amount: real): (r: Needs)
    ensures r.energy == n.energy && r.excitement == n.excitement
    ensures r.food <= s.maxFood
    ensures n.food <= s.maxFood && amount * s.foodGainModifier >= 0.0 ==> n.food <= r.food
  {
    n.(food := RaiseCapped(n.food, amount * s.foodGainModifier, s.maxFood))
  }

  /** `hunger(days)`: food falls by `days` times the food drain modifier, down to zero. */
  function AfterHunger(s: Settings, n: Needs, days: real): (r: Needs)
    ensures r.energy == n.energy && r.excitement == n.excitement
    ensures r.food >= 0.0
    ensures n.food >= 0.0 && days * s.foodDrainModifier >= 0.0 ==> r.food <= n.food
  {
    n.(food := LowerFloored(n.food, days * s.foodDrainModifier))
  }

  /** `recharge(amount)`: energy rises by `amount` times the energy gain modifier, up to the maximum. */
  function AfterRecharge(s: Settings, n: Needs, amount: real): (r: Needs)
    ensures r.food == n.food && r.excitement == n.excitement
    ensures r.energy <= s.maxEnergy
    ensures n.energy <= s.maxEnergy && amount * s.energyGainModifier >= 0.0 ==> n.energy <= r.energy
  {
    n.(energy := RaiseCapped(n.energy, amount * s.energyGainModifier, s.maxEnergy))
  }

  /** `exhaust(days)`: energy falls by `days` times the energy drain modifier, down to zero. */
  function AfterExhaust(s: Settings, n: Needs, days: real): (r: Needs)
    ensures r.food == n.food && r.excitement == n.excitement
    ensures r.energy >= 0.0
    ensures n.energy >= 0.0 && days * s.energyDrainModifier >= 0.0 ==> r.energy <= n.energy
  {
    n.(energy := LowerFloored(n.energy, days * s.energyDrainModifier))
  }

  /**
   * `excite(amount)`: excitement rises by `amount` PLUS the excitement gain
   * modifier (a flat bonus on every call, not a factor), up to the maximum.
   */
  function AfterExcite(s: Settings, n: Needs, amount: real): (r: Needs)
    ensures r.food == n.food && r.energy == n.energy
    ensures r.excitement <= s.maxExcitement
    ensures n.excitement <= s.maxExcitement && amount + s.excitementGainModifier >= 0.0 ==>
              n.excitement <= r.excitement
  {
    n.(excitement := RaiseCapped(n.excitement, amount + s.excitementGainModifier, s.maxExcitement))
  }

  /** `bore(days)`: excitement falls by `days` times the excitement drain modifier, down to zero. */
  function AfterBore(s: Settings, n: Needs, days: real): (r: Needs)
    ensures r.food == n.food && r.energy == n.energy
    ensures r.excitement >= 0.0
    ensures n.excitement >= 0.0 && days * s.excitementDrainModifier >= 0.0 ==>
              r.excitement <= n.excitement
  {
    n.(excitement := LowerFloored(n.excitement, days * s.excitementDrainModifier))
  }

  /**
   * `update_by_time_passed(days)`: hunger for `days`, then bore for
   * `days * excitementDrainModifier`, then recharge for
   * `days * energyGainModifier`. Since bore and recharge multiply by their
   * modifier again, those two modifiers act squared.
   */
  function AfterTime(s: Settings, n: Needs, days: real): (r: Needs)
    ensures r.food >= 0.0 && r.excitement >= 0.0 && r.energy <= s.maxEnergy
  {
    var hungry := AfterHunger(s, n, days);
    var bored := AfterBore(s, hungry, days * s.excitementDrainModifier);
    AfterRecharge(s, bored, days * s.energyGainModifier)
  }

  /**
   * With the default modifiers, the squared bore drain and recharge gain
   * (100 * 100 per day) empty the excitement meter and fill the energy
   * meter after any 0.01 days (about 15 minutes), whatever the meters were.
   */
  lemma DefaultTimeSaturatesWithinMinutes(n: Needs, days: real)
    requires InRange(DefaultSettings, n) && days >= 0.01
    ensures AfterTime(DefaultSettings, n, days).excitement == 0.0
    ensures AfterTime(DefaultSettings, n, days).energy == DefaultSettings.maxEnergy
  {
  }

  /**
   * Read as "per day", as cat.py's docstrings describe the modifiers, a bore
   * of 0.01 days would take only 1 of 100 excitement away.
   */
  lemma PerDayBoreDrainsOnePercent()
    ensures AfterBore(DefaultSettings, Needs(100.0, 100.0, 100.0), 0.01).excitement == 99.0
  {
  }

  /** With non-negative modifiers and days, time keeps every meter within `[0, max]`. */
  lemma TimePassedKeepsInRange(s: Settings, n: Needs, days: real)
    requires InRange(s, n) && NonNegativeModifiers(s) && days >= 0.0
    ensures InRange(s, AfterTime(s, n, days))
  {
    var hungry := AfterHunger(s, n, days);
    LowersKeepInRange(s, n, days);
    ProductNonNegative(days, s.excitementDrainModifier);
    var bored := AfterBore(s, hungry, days * s.excitementDrainModifier);
    LowersKeepInRange(s, hungry, days * s.excitementDrainModifier);
    ProductNonNegative(days, s.energyGainModifier);
    RaisesKeepInRange(s, bored, days * s.energyGainModifier);
  }

  /** No time passed: a cat whose meters are in range is left exactly as it was. */
  lemma NoTimeChangesNothing(s: Settings, n: Needs)
    requires InRange(s, n)
    ensures AfterTime(s, n, 0.0) == n
  {
  }

  /** The product of two non-negative reals is non-negative. */
  lemma ProductNonNegative(a: real, b: real)
    requires a >= 0.0 && b >= 0.0
    ensures a * b >= 0.0
  {
  }

  /** Feed, recharge and excite keep every meter within `[0, max]` when their argument and the modifiers are non-negative. */
  lemma RaisesKeepInRange(s: Settings, n: Needs, amount: real)
    requires InRange(s, n) && NonNegativeModifiers(s) && amount >= 0.0
    ensures InRange(s, AfterFeed(s, n, amount))
    ensures InRange(s, AfterRecharge(s, n, amount))
    ensures InRange(s, AfterExcite(s, n, amount))
  {
    ProductNonNegative(amount, s.foodGainModifier);
    ProductNonNegative(amount, s.energyGainModifier);
  }

  /** Hunger, exhaust and bore keep every meter within `[0, max]` when their argument and the modifiers are non-negative. */
  lemma LowersKeepInRange(s: Settings, n: Needs, amount: real)
    requires InRange(s, n) && NonNegativeModifiers(s) && amount >= 0.0
    ensures InRange(s, AfterHunger(s, n, amount))
    ensures InRange(s, AfterExhaust(s, n, amount))
    ensures InRange(s, AfterBore(s, n, amount))
  {
    ProductNonNegative(amount, s.foodDrainModifier);
    ProductNonNegative(amount, s.energyDrainModifier);
    ProductNonNegative(amount, s.excitementDrainModifier);
  }

  /** A full cat with the food drain modifier set to 1 that hungers for 150 days has exactly no food left. */
  lemma HungerClampsAtZero()
    ensures AfterHunger(DefaultSettings.(foodDrainModifier := 1.0), Needs(100.0, 100.0, 100.0), 150.0).food == 0.0
  {
  }

  /** The cat itself, whose meter methods update its fields in place. */
  class Cat {
    var name: string

    var maxFood: real
    var foodGainModifier: real
    var foodDrainModifier: real
    var food: real

    var maxEnergy: real
    var energyGainModifier: real
    var energyDrainModifier: real
    var energy: real

    var maxExcitement: real
    var excitementGainModifier: real
    var excitementDrainModifier: real
    var excitement: real

    /** Time of the last checkpoint, in seconds since the epoch (UTC). */
    var lastUpdate: real

    /** The current meters. */
    function Meters(): Needs
      reads this
    {
      Needs(food, energy, excitement)
    }

    /** The maxima and modifiers. */
    function Config(): Settings
      reads this
    {
      Settings(maxFood, foodGainModifier, foodDrainModifier,
               maxEnergy, energyGainModifier, energyDrainModifier,
               maxExcitement, excitementGainModifier, excitementDrainModifier)
    }

    /**
     * A new cat with every meter at its maximum. `createdAt` stands for the
     * clock reading cat.py takes for `last_update`.
     */
    constructor (name: string, createdAt: real,
                 maxFood: real := DefaultSettings.maxFood,
                 foodGainModifier: real := DefaultSettings.foodGainModifier,
                 foodDrainModifier: real := DefaultSettings.foodDrainModifier,
                 maxEnergy: real := DefaultSettings.maxEnergy,
                 energyGainModifier: real := DefaultSettings.energyGainModifier,
                 energyDrainModifier: real := DefaultSettings.energyDrainModifier,
                 maxExcitement: real := DefaultSettings.maxExcitement,
                 excitementGainModifier: real := DefaultSettings.excitementGainModifier,
                 excitementDrainModifier: real := DefaultSettings.excitementDrainModifier)
      ensures this.name == name && lastUpdate == createdAt
      ensures Config() == Settings(maxFood, foodGainModifier, foodDrainModifier,
                                   maxEnergy, energyGainModifier, energyDrainModifier,
                                   maxExcitement, excitementGainModifier, excitementDrainModifier)
      ensures food == maxFood && energy == maxEnergy && excitement == maxExcitement
    {
      this.name := name;
      this.maxFood := maxFood;
      this.foodGainModifier := foodGainModifier;
      this.foodDrainModifier := foodDrainModifier;
      food := maxFood;
      this.maxEnergy := maxEnergy;
      this.energyGainModifier := energyGainModifier;
      this.energyDrainModifier := energyDrainModifier;
      energy := maxEnergy;
      this.maxExcitement := maxExcitement;
      this.excitementGainModifier := excitementGainModifier;
      this.excitementDrainModifier := excitementDrainModifier;
      excitement := maxExcitement;
      lastUpdate := createdAt;
    }

    /** A stub in cat.py: petting changes nothing. */
    method Pet()
      ensures Meters() == old(Meters()) && Config() == old(Config())
      ensures name == old(name) && lastUpdate == old(lastUpdate)
    {
    }

    /** A stub in cat.py: a nap changes nothing. */
    method Nap()
      ensures Meters() == old(Meters()) && Config() == old(Config())
      ensures name == old(name) && lastUpdate == old(lastUpdate)
    {
    }

    method UpdateByTimePassed(days: real)
      modifies this
      ensures Meters() == AfterTime(old(Config()), old(Meters()), days)
      ensures Config() == old(Config()) && name == old(name) && lastUpdate == old(lastUpdate)
    {
      Hunger(days);
      Bore(days * excitementDrainModifier);
      Recharge(days * energyGainModifier);
    }

    method Feed(amount: real)
      modifies this
      ensures Meters() == AfterFeed(old(Config()), old(Meters()), amount)
      ensures Config() == old(Config()) && name == old(name) && lastUpdate == old(lastUpdate)
    {
      food := RaiseCapped(food, amount * foodGainModifier, maxFood);
    }

    method Hunger(days: real)
      modifies this
      ensures Meters() == AfterHunger(old(Config()), old(Meters()), days)
      ensures Config() == old(Config()) && name == old(name) && lastUpdate == old(lastUpdate)
    {
      food := LowerFloored(food, days * foodDrainModifier);
    }

    method Recharge(amount: real)
      modifies this
      ensures Meters() == AfterRecharge(old(Config()), old(Meters()), amount)
      ensures Config() == old(Config()) && name == old(name) && lastUpdate == old(lastUpdate)
    {
      energy := RaiseCapped(energy, amount * energyGainModifier, maxEnergy);
    }

    method Exhaust(days: real)
      modifies this
      ensures Meters() == AfterExhaust(old(Config()), old(Meters()), days)
      ensures Config() == old(Config()) && name == old(name) && lastUpdate == old(lastUpdate)
    {
      energy := LowerFloored(energy, days * energyDrainModifier);
    }

    method Excite(amount: real)
      modifies this
      ensures Meters() == AfterExcite(old(Config()), old(Meters()), amount)
      ensures Config() == old(Config()) && name == old(name) && lastUpdate == old(lastUpdate)
    {
      excitement := RaiseCapped(excitement, amount + excitementGainModifier, maxExcitement);
    }

    method Bore(days: real)
      modifies this
      ensures Meters() == AfterBore(old(Config()), old(Meters()), days)
      ensures Config() == old(Config()) && name == old(name) && lastUpdate == old(lastUpdate)
    {
      excitement := LowerFloored(excitement, days * excitementDrainModifier);
    }
  }
}

=== FILE: gittycat.dfy ===
/**
 * The catch-up reducer of the `status` command in gittycat.py: time decay
 * for the days since the last checkpoint, then one pass over the commits of
 * HEAD, newest first, that feeds, exhausts and excites the cat once per
 * commit made since the checkpoint, skipping the tool's own commits, and
 * finally the new checkpoint.
 *
 * The clock and GitPython are replaced by parameters: the two clock readings
 * of `status` are `startedAt` and `finishedAt`, and the commit log is a
 * sequence of `Commit` records carrying what the loop reads of each commit.
 */
module Gittycat {
  import opened CatModel

  /** What the loop reads of a commit: its time, its author's name, the files it touches and the lines it inserts. */
  datatype Commit = Commit(committed: real, authorName: string, fileCount: nat, insertions: nat)

  /** The substring by which the tool recognises its own commits. */
  const SelfMarker: string := "Gittycat"

  /** The author name of `_commit_changes`'s default author `Gittycat <gittycat@example.com>`. */
  const DefaultAuthorName: string := "Gittycat"

  /** The author name `status` commits its checkpoint under: `{name} (via Gittycat)`. */
  function CheckpointAuthorName(catName: string): (r: string)
    ensures catName <= r
    ensures Contains(r, SelfMarker)
  {
    ContainsInfix(catName + " (via ", SelfMarker, ")");
    assert catName + " (via Gittycat)" == (catName + " (via ") + SelfMarker + ")";
    catName + " (via Gittycat)"
  }

  /** The `--author` string `_commit_changes` hands to git: a name followed by the tool's address. */
  function AuthorString(authorName: string): string
  {
    authorName + " <gittycat@example.com>"
  }

  /** The part of `a` before its first `<`. */
  function BeforeFirstAngle(a: string): (r: string)
    ensures r <= a && '<' !in r
    ensures |r| < |a| ==> a[|r|] == '<'
    decreases |a|
  {
    if a == [] || a[0] == '<' then [] else [a[0]] + BeforeFirstAngle(a[1..])
  }

  /** `s` without its trailing spaces. */
  function TrimTrailingSpaces(s: string): (r: string)
    ensures r <= s
    ensures r == [] || r[|r| - 1] != ' '
    ensures forall i :: |r| <= i < |s| ==> s[i] == ' '
    decreases |s|
  {
    if s == [] || s[|s| - 1] != ' ' then s else TrimTrailingSpaces(s[..|s| - 1])
  }

  /**
   * The author name git records for an `--author` string `Name <email>`:
   * the text before the first `<`, without the spaces in front of it.
   */
  function RecordedName(author: string): (r: string)
    ensures r <= author && '<' !in r
  {
    TrimTrailingSpaces(BeforeFirstAngle(author))
  }

  /** Text without a `<` passes through the cut at the first `<` unchanged. */
  lemma {:induction false} BeforeFirstAngleOfPlainPrefix(x: string, y: string)
    requires '<' !in x
    ensures BeforeFirstAngle(x + y) == x + BeforeFirstAngle(y)
    decreases |x|
  {
    if x == [] {
      assert x + y == y;
    } else {
      assert x[0] in x;
      assert (x + y)[0] == x[0];
      assert (x + y)[1..] == x[1..] + y;
      BeforeFirstAngleOfPlainPrefix(x[1..], y);
      assert BeforeFirstAngle(x + y) == [x[0]] + (x[1..] + BeforeFirstAngle(y));
      assert x == [x[0]] + x[1..];
    }
  }

  /** One trailing space is trimmed off a name that does not end in a space. */
  lemma TrimOneTrailingSpace(s: string)
    requires s == [] || s[|s| - 1] != ' '
    ensures TrimTrailingSpaces(s + " ") == s
  {
    assert (s + " ")[..|s|] == s;
  }

  /** git records exactly the name given, when it has no `<` and does not end in a space. */
  lemma RecordedNameOfAuthorString(authorName: string)
    requires '<' !in authorName
    requires authorName == [] || authorName[|authorName| - 1] != ' '
    ensures RecordedName(AuthorString(authorName)) == authorName
  {
    var padded := authorName + " ";
    var mail := "<gittycat@example.com>";
    assert '<' !in padded;
    assert AuthorString(authorName) == padded + mail;
    BeforeFirstAngleOfPlainPrefix(padded, mail);
    assert BeforeFirstAngle(mail) == [];
    assert BeforeFirstAngle(AuthorString(authorName)) == padded;
    TrimOneTrailingSpace(authorName);
  }

  /** Python's `t in s` on strings: `t` occurs in `s` at some position. */
  predicate Contains(s: string, t: string)
    ensures t <= s ==> Contains(s, t)
    ensures Contains(s, t) ==> |t| <= |s|
    decreases |s|
  {
    t <= s || (|s| > 0 && Contains(s[1..], t))
  }

  /** `t` occurs in `s` starting at index `i`. */
  predicate OccursAt(s: string, t: string, i: int)
  {
    0 <= i && i + |t| <= |s| && s[i..i + |t|] == t
  }

  /** `Contains` agrees with the direct definition: `t` occurs in `s` at some index. */
  lemma {:induction false} ContainsIffOccurs(s: string, t: string)
    ensures Contains(s, t) <==> exists i :: OccursAt(s, t, i)
    decreases |s|
  {
    if t <= s {
      assert OccursAt(s, t, 0);
    } else if |s| == 0 {
      forall i | OccursAt(s, t, i) ensures false {
      }
    } else {
      ContainsIffOccurs(s[1..], t);
      if Contains(s[1..], t) {
        var i :| OccursAt(s[1..], t, i);
        assert s[i + 1..i + 1 + |t|] == s[1..][i..i + |t|];
        assert OccursAt(s, t, i + 1);
      } else {
        forall i | OccursAt(s, t, i) ensures OccursAt(s[1..], t, i - 1) {
          assert s[1..][i - 1..i - 1 + |t|] == s[i..i + |t|];
        }
      }
    }
  }

  /** A string with `t` in the middle contains `t`. */
  lemma {:induction false} ContainsInfix(p: string, t: string, q: string)
    ensures Contains(p + t + q, t)
    decreases |p|
  {
    if p == [] {
      assert p + t + q == t + q;
    } else {
      assert (p + t + q)[1..] == p[1..] + t + q;
      ContainsInfix(p[1..], t, q);
    }
  }

  /** A commit the loop skips: its author's name contains "Gittycat". */
  predicate IsSelfAuthored(c: Commit)
    ensures IsSelfAuthored(c) <==> exists i :: OccursAt(c.authorName, SelfMarker, i)
  {
    ContainsIffOccurs(c.authorName, SelfMarker);
    Contains(c.authorName, SelfMarker)
  }

  /**
   * The names git records for both author strings the tool commits under
   * are recognised as its own: `Gittycat`, and `{name} (via Gittycat)` for
   * every cat name without a `<`.
   */
  lemma CheckpointAuthorsAreSelf(catName: string)
    ensures Contains(RecordedName(AuthorString(DefaultAuthorName)), SelfMarker)
    ensures '<' !in catName ==> RecordedName(AuthorString(CheckpointAuthorName(catName))) == CheckpointAuthorName(catName)
    ensures '<' !in catName ==> Contains(RecordedName(AuthorString(CheckpointAuthorName(catName))), SelfMarker)
  {
    RecordedNameOfAuthorString(DefaultAuthorName);
    assert DefaultAuthorName == [] + SelfMarker + [];
    ContainsInfix([], SelfMarker, []);
    if '<' !in catName {
      var name := CheckpointAuthorName(catName);
      assert name == catName + " (via Gittycat)";
      assert '<' !in name by {
        forall i | 0 <= i < |name| ensures name[i] != '<' {
          if i < |catName| { assert name[i] == catName[i]; }
        }
      }
      RecordedNameOfAuthorString(name);
    }
  }

  /**
   * A cat named `Tom <3` loses the marker: git cuts its checkpoint author
   * string at the `<` inside the cat name, and the recorded name is `Tom`.
   */
  lemma AngleInCatNameHidesMarker()
    ensures RecordedName(AuthorString(CheckpointAuthorName("Tom <3"))) == "Tom"
    ensures !Contains("Tom", SelfMarker)
  {
    var a := AuthorString(CheckpointAuthorName("Tom <3"));
    BeforeFirstAngleOfPlainPrefix("Tom ", a[4..]);
    assert a == "Tom " + a[4..];
  }

  /** `(now - since).total_seconds() / 86400.0`: the elapsed time in (fractional) days. */
  function ElapsedDays(since: real, now: real): (days: real)
    ensures days * 86400.0 == now - since
    ensures now >= since ==> days >= 0.0
  {
    (now - since) / 86400.0
  }

  /** `feed(1)`, then `exhaust(file count)`, then `excite(insertions)`: what one commit does to the cat. */
  function AfterCommit(s: Settings, n: Needs, c: Commit): (r: Needs)
    ensures r.food <= s.maxFood && r.energy >= 0.0 && r.excitement <= s.maxExcitement
  {
    var fed := AfterFeed(s, n, 1.0);
    var tired := AfterExhaust(s, fed, c.fileCount as real);
    AfterExcite(s, tired, c.insertions as real)
  }

  /** One commit keeps every meter within `[0, max]` when the modifiers are non-negative. */
  lemma AfterCommitKeepsInRange(s: Settings, n: Needs, c: Commit)
    ensures InRange(s, n) && NonNegativeModifiers(s) ==> InRange(s, AfterCommit(s, n, c))
  {
    if InRange(s, n) && NonNegativeModifiers(s) {
      var fed := AfterFeed(s, n, 1.0);
      RaisesKeepInRange(s, n, 1.0);
      var tired := AfterExhaust(s, fed, c.fileCount as real);
      LowersKeepInRange(s, fed, c.fileCount as real);
      RaisesKeepInRange(s, tired, c.insertions as real);
    }
  }

  /**
   * The commit loop of `status` over the newest-first log `cs`: stop at the
   * first commit strictly older than `since`, skip the tool's own commits,
   * apply every other commit once.
   */
  function CatchUp(s: Settings, n: Needs, since: real, cs: seq<Commit>): (r: Needs)
    ensures InRange(s, n) && NonNegativeModifiers(s) ==> InRange(s, r)
    decreases |cs|
  {
    if cs == [] || cs[0].committed < since then n
    else if IsSelfAuthored(cs[0]) then CatchUp(s, n, since, cs[1..])
    else
      AfterCommitKeepsInRange(s, n, cs[0]);
      CatchUp(s, AfterCommit(s, n, cs[0]), since, cs[1..])
  }

  /** The index of the first commit strictly older than `since`, or `|cs|` if there is none. */
  function StopIndex(since: real, cs: seq<Commit>): (k: nat)
    ensures k <= |cs|
    ensures forall j :: 0 <= j < k ==> cs[j].committed >= since
    ensures k < |cs| ==> cs[k].committed < since
    decreases |cs|
  {
    if cs == [] || cs[0].committed < since then 0 else 1 + StopIndex(since, cs[1..])
  }

  /** The commits the loop looks at before it stops: those newer than the first commit older than `since`. */
  function InScope(since: real, cs: seq<Commit>): seq<Commit>
  {
    cs[..StopIndex(since, cs)]
  }

  /** The commits not made by the tool, in their original order. */
  function UserCommits(cs: seq<Commit>): (r: seq<Commit>)
    ensures |r| <= |cs|
    ensures forall c :: c in r <==> c in cs && !IsSelfAuthored(c)
    ensures forall c :: multiset(r)[c] == if IsSelfAuthored(c) then 0 else multiset(cs)[c]
    decreases |cs|
  {
    if cs == [] then []
    else
      assert cs == [cs[0]] + cs[1..];
      if IsSelfAuthored(cs[0]) then UserCommits(cs[1..])
      else [cs[0]] + UserCommits(cs[1..])
  }

  /** Applies every commit of `cs` once, in order. */
  function ApplyAll(s: Settings, n: Needs, cs: seq<Commit>): Needs
    decreases |cs|
  {
    if cs == [] then n else ApplyAll(s, AfterCommit(s, n, cs[0]), cs[1..])
  }

  /**
   * The loop applies each in-scope commit not made by the tool exactly once,
   * newest first, and nothing else.
   */
  lemma {:induction false} CatchUpAppliesEachUserCommitOnce(s: Settings, n: Needs, since: real, cs: seq<Commit>)
    ensures CatchUp(s, n, since, cs) == ApplyAll(s, n, UserCommits(InScope(since, cs)))
    decreases |cs|
  {
    if cs == [] || cs[0].committed < since {
      assert InScope(since, cs) == [];
    } else {
      var k := StopIndex(since, cs);
      assert k == 1 + StopIndex(since, cs[1..]);
      assert InScope(since, cs) == [cs[0]] + InScope(since, cs[1..]);
      assert InScope(since, cs)[1..] == InScope(since, cs[1..]);
      if IsSelfAuthored(cs[0]) {
        CatchUpAppliesEachUserCommitOnce(s, n, since, cs[1..]);
      } else {
        CatchUpAppliesEachUserCommitOnce(s, AfterCommit(s, n, cs[0]), since, cs[1..]);
        assert UserCommits(InScope(since, cs)) == [cs[0]] + UserCommits(InScope(since, cs[1..]));
      }
    }
  }

  /** The first commit strictly older than `since`, and everything after it, is never looked at. */
  lemma {:induction false} ScanStopsAtFirstOlderCommit(s: Settings, n: Needs, since: real,
                                                       newer: seq<Commit>, older: Commit, rest: seq<Commit>)
    requires forall j :: 0 <= j < |newer| ==> newer[j].committed >= since
    requires older.committed < since
    ensures CatchUp(s, n, since, newer + [older] + rest) == CatchUp(s, n, since, newer)
    decreases |newer|
  {
    if newer == [] {
      assert newer + [older] + rest == [older] + rest;
    } else {
      assert (newer + [older] + rest)[1..] == newer[1..] + [older] + rest;
      var next := if IsSelfAuthored(newer[0]) then n else AfterCommit(s, n, newer[0]);
      ScanStopsAtFirstOlderCommit(s, next, since, newer[1..], older, rest);
    }
  }

  /** A commit stamped exactly at the checkpoint is still processed. */
  lemma BoundaryIsInclusive(s: Settings, n: Needs, c: Commit, rest: seq<Commit>)
    requires !IsSelfAuthored(c)
    ensures CatchUp(s, n, c.committed, [c] + rest) == CatchUp(s, AfterCommit(s, n, c), c.committed, rest)
  {
    assert ([c] + rest)[1..] == rest;
  }

  /**
   * A self-authored commit at or after the checkpoint changes nothing, and the
   * scan goes on past it: removing it leaves the result the same.
   */
  lemma {:induction false} SelfCommitsAreInvisible(s: Settings, n: Needs, since: real,
                                                   pre: seq<Commit>, c: Commit, post: seq<Commit>)
    requires IsSelfAuthored(c) && c.committed >= since
    ensures CatchUp(s, n, since, pre + [c] + post) == CatchUp(s, n, since, pre + post)
    decreases |pre|
  {
    if pre == [] {
      assert pre + [c] + post == [c] + post;
      assert ([c] + post)[1..] == post;
      assert pre + post == post;
    } else {
      assert (pre + [c] + post)[1..] == pre[1..] + [c] + post;
      assert (pre + post)[1..] == pre[1..] + post;
      var next := if IsSelfAuthored(pre[0]) then n else AfterCommit(s, n, pre[0]);
      SelfCommitsAreInvisible(s, next, since, pre[1..], c, post);
    }
  }

  /**
   * The checkpoint commit `status` itself makes, under the name git records
   * for it, never feeds the cat on a later run, provided the cat's name has
   * no `<`.
   */
  lemma CheckpointCommitNeverCounts(s: Settings, n: Needs, since: real, catName: string,
                                    pre: seq<Commit>, c: Commit, post: seq<Commit>)
    requires '<' !in catName
    requires c.authorName == RecordedName(AuthorString(CheckpointAuthorName(catName))) && c.committed >= since
    ensures CatchUp(s, n, since, pre + [c] + post) == CatchUp(s, n, since, pre + post)
  {
    CheckpointAuthorsAreSelf(catName);
    SelfCommitsAreInvisible(s, n, since, pre, c, post);
  }

  /** The checkpoint commit of a cat named `Tom <3` is fed back into the cat like a user commit. */
  lemma AngleCatCheckpointCounts(s: Settings, n: Needs, since: real, c: Commit)
    requires c.authorName == RecordedName(AuthorString(CheckpointAuthorName("Tom <3"))) && c.committed >= since
    ensures CatchUp(s, n, since, [c]) == AfterCommit(s, n, c)
  {
    AngleInCatNameHidesMarker();
    assert [c][1..] == [];
  }

  /** Applying commits keeps every meter within `[0, max]` when the modifiers are non-negative. */
  lemma {:induction false} ApplyAllKeepsInRange(s: Settings, n: Needs, cs: seq<Commit>)
    requires InRange(s, n) && NonNegativeModifiers(s)
    ensures InRange(s, ApplyAll(s, n, cs))
    decreases |cs|
  {
    if cs != [] {
      AfterCommitKeepsInRange(s, n, cs[0]);
      ApplyAllKeepsInRange(s, AfterCommit(s, n, cs[0]), cs[1..]);
    }
  }

  /** If every commit the scan looks at was made by the tool, the scan leaves the meters as they were. */
  lemma {:induction false} NoUserCommitLeavesMetersAlone(s: Settings, n: Needs, since: real, cs: seq<Commit>)
    requires forall j :: 0 <= j < StopIndex(since, cs) ==> IsSelfAuthored(cs[j])
    ensures CatchUp(s, n, since, cs) == n
    decreases |cs|
  {
    if cs != [] && cs[0].committed >= since {
      assert IsSelfAuthored(cs[0]);
      forall j | 0 <= j < StopIndex(since, cs[1..]) ensures IsSelfAuthored(cs[1..][j]) {
        assert cs[1..][j] == cs[j + 1];
      }
      NoUserCommitLeavesMetersAlone(s, n, since, cs[1..]);
    }
  }

  /** Without elapsed time and with only the tool's commits since the checkpoint, a run leaves the meters as they were. */
  lemma RerunWithoutNewCommitsChangesNothing(s: Settings, n: Needs, at: real, cs: seq<Commit>)
    requires InRange(s, n)
    requires forall j :: 0 <= j < |cs| && cs[j].committed >= at ==> IsSelfAuthored(cs[j])
    ensures CatchUp(s, AfterTime(s, n, ElapsedDays(at, at)), at, cs) == n
  {
    NoTimeChangesNothing(s, n);
    NoUserCommitLeavesMetersAlone(s, n, at, cs);
  }

  /** One user commit touching 3 files with 20 insertions plus one self-authored commit: exactly one commit is applied. */
  lemma OneUserCommitBesideSelfCommit(s: Settings, n: Needs, since: real, selfCommit: Commit)
    requires IsSelfAuthored(selfCommit) && selfCommit.committed >= since
    ensures var user := Commit(since, "Alice", 3, 20);
            CatchUp(s, n, since, [selfCommit, user]) == CatchUp(s, n, since, [user])
              == AfterExcite(s, AfterExhaust(s, AfterFeed(s, n, 1.0), 3.0), 20.0)
  {
    var user := Commit(since, "Alice", 3, 20);
    assert !IsSelfAuthored(user) by {
      assert !(SelfMarker <= user.authorName);
      assert !(SelfMarker <= user.authorName[1..]);
      assert !(SelfMarker <= user.authorName[1..][1..]);
      assert !(SelfMarker <= user.authorName[1..][1..][1..]);
      assert !(SelfMarker <= user.authorName[1..][1..][1..][1..]);
      assert !(SelfMarker <= user.authorName[1..][1..][1..][1..][1..]);
    }
    SelfCommitsAreInvisible(s, n, since, [], selfCommit, [user]);
    assert [] + [selfCommit] + [user] == [selfCommit, user];
  }

  /**
   * The body of `status` after the cat is loaded: time decay once, the
   * commit loop, then the new checkpoint. `startedAt` and `finishedAt` are
   * the two clock readings gittycat.py takes.
   */
  method Status(cat: Cat, commits: seq<Commit>, startedAt: real, finishedAt: real)
    modifies cat
    ensures cat.Meters() == CatchUp(old(cat.Config()),
                                    AfterTime(old(cat.Config()), old(cat.Meters()),
                                              ElapsedDays(old(cat.lastUpdate), startedAt)),
                                    old(cat.lastUpdate), commits)
    ensures cat.lastUpdate == finishedAt
    ensures cat.Config() == old(cat.Config()) && cat.name == old(cat.name)
    ensures (InRange(old(cat.Config()), old(cat.Meters())) && NonNegativeModifiers(old(cat.Config())) &&
             startedAt >= old(cat.lastUpdate)) ==> InRange(cat.Config(), cat.Meters())
  {
    var days := (startedAt - cat.lastUpdate) / 86400.0;
    cat.UpdateByTimePassed(days);
    ghost var s, decayed, since := cat.Config(), cat.Meters(), cat.lastUpdate;

    var i := 0;
    while i < |commits|
      invariant 0 <= i <= |commits|
      invariant cat.Config() == s && cat.lastUpdate == since && cat.name == old(cat.name)
      invariant CatchUp(s, cat.Meters(), since, commits[i..]) == CatchUp(s, decayed, since, commits)
    {
      var commit := commits[i];
      if commit.committed < cat.lastUpdate {
        break;
      }
      assert commits[i..][1..] == commits[i + 1..];
      if Contains(commit.authorName, SelfMarker) {
        i := i + 1;
        continue;
      }
      cat.Feed(1.0);
      cat.Exhaust(commit.fileCount as real);
      cat.Excite(commit.insertions as real);
      i := i + 1;
    }
    assert CatchUp(s, cat.Meters(), since, commits[i..]) == cat.Meters();
    cat.lastUpdate := finishedAt;

    if InRange(old(cat.Config()), old(cat.Meters())) && NonNegativeModifiers(s) && startedAt >= since {
      TimePassedKeepsInRange(s, old(cat.Meters()), days);
      CatchUpAppliesEachUserCommitOnce(s, decayed, since, commits);
      ApplyAllKeepsInRange(s, decayed, UserCommits(InScope(since, commits)));
    }
  }
}
